=== FILE: README.md ===
# Request Manager: the Process store, in Dafny

This project models the core of an anonymization request manager. A
requesting system files a Request, which holds a person identifier and a
document type. The request then fans out to one **Process** per
processing system. A Process is one system's sub-workflow for the request.
It has two status codes:

- a verification outcome, `st_system_verify`: 0 pending, 1 approved,
  2 rejected, 3 error, 4 timeout;
- a processing outcome, `st_system_request`: 0 pending, 1 completed,
  2 partial, 3 error, 4 timeout, 5 canceled.

External systems report back through three validated callbacks:
verification, processing and progress.

The model covers these pieces:

- `Models` (`models.dfy`): the record shapes of `Request`, `DomSystem`,
  `Process` and `ProcessProgress`. It also models inserting a system row
  under the primary key and the unique name constraint, with the column
  defaults 7, 30 and 5.
- `StatusCodes` (`status_codes.dfy`): the two code domains as enumerations,
  and `get_status_text`, including its "Desconhecido (n)" fallback and the
  decimal rendering of `n`.
- `Schemas` (`schemas.dfy`): the validators of `VerificationRequest`,
  `ProcessingRequest` and `ProcessProgressUpdate`.
- `ProcessService` (`process_service.dfy`): the store of Processes, a map
  keyed by (id_request, id_system_process), and the append-only progress
  ledger, a sequence. It has the service's store operations. The four
  writers take the state, the arguments and `now`, and return a result and
  the new state. The three lookups take the state and a key and return a
  result. `get_status_text` is `StatusCodes.StatusText`.
- `RequestService` (`request_service.dfy`): request creation, lookup by id
  and `update_request`.

The code has none of the following behaviours, and neither does the model:

- There is no gate from verification to processing. `update_processing_status`
  never reads `st_system_verify`. See `ProcessingNeedsNoApproval` and
  `ProcessingIgnoresVerification`.
- There is no transition guard, idempotence rule or conflict rule. Any code
  overwrites any code. See `LaterOutcomeOverwrites`.
- The service level never demands a refusal reason. A reason is stored only
  when it is truthy, so an approval keeps a stale reason. See
  `ApprovalKeepsStaleReason`.
- Progress is accepted in any state, even after processing has concluded
  (`ProgressAfterConclusion`).
- No code sweeps for timeouts or retries, and no code aggregates a
  request-level status. The timeout and retry columns of `DomSystem` are
  stored but never read.
- Intake is not atomic. `create_request` and `create_process_entry` are
  separate calls, each with its own commit.

## Model

| member | source | states |
|---|---|---|
| StatusCodes.VerifyFromCode | app/models/models.py:75 | The verification domain is exactly 0..4. Each code in it names the one state whose persisted code it is. |
| StatusCodes.RequestFromCode | app/models/models.py:77 | The processing domain is exactly 0..5. Each code in it names the one state whose persisted code it is. |
| StatusCodes.VerifyCodeRoundTrip | app/models/models.py:75 | Every verification state is recovered from its persisted code. |
| StatusCodes.RequestCodeRoundTrip | app/models/models.py:77 | Every processing state is recovered from its persisted code. |
| StatusCodes.DefaultsArePending | app/models/models.py:75-77 | Both status columns default to 0, which is the pending state of each domain. |
| StatusCodes.StatusText | app/services/process_service.py:216-244 | The type defaults to "verify". The type "verify" renders 0..4 as the labels of the verification states. Any other type string renders 0..5 as the labels of the processing states. Any other code renders as "Desconhecido (n)". |
| StatusCodes.StatusTextDefaultsToVerify | app/services/process_service.py:216 | A call without a type renders exactly as a call with "verify": 3 reads as the verification error and 5 is unknown. |
| StatusCodes.StatusTextInjective | app/services/process_service.py:226-244 | Under one type, two codes with the same text are the same code. This includes the unknown texts, which never collide with a label. |
| StatusCodes.TablesDisagree | app/services/process_service.py:226-242 | The tables are distinct code spaces. 5 is unknown for "verify" but canceled otherwise, and codes 1 and 2 differ in meaning between the tables. |
| StatusCodes.NatToDecimalRoundTrip | app/services/process_service.py:244 | The digits rendered for a code in the unknown text read back as that code. |
| StatusCodes.IntToDecimalRoundTrip | app/services/process_service.py:244 | The rendering of any code, negative ones included, reads back as that code. |
| StatusCodes.IntToDecimalInjective | app/services/process_service.py:244 | Distinct codes, negative ones included, give distinct renderings. |
| Models.InsertSystem | app/models/models.py:39-47 | A system row is refused for a used id or a used name. Otherwise a row holding the given id, name, system type and three addresses is added with nothing else changed, and an omitted policy column gets 7, 30 or 5 days/attempts. The name uniqueness invariant is kept. |
| Models.GroupsCoverAllFields | app/models/models.py:58-78 | Identity, verification phase and processing phase together cover every column of a Process. So "the other groups are unchanged" leaves nothing else free. |
| Schemas.ValidateVerification | app/models/schemas.py:60-72 | Accepted iff the status is approved, or it is rejected and the reason is omitted or non-empty. A null or empty reason on a rejection is refused. An accepted callback carries its key, status and reason. |
| Schemas.ValidateVerificationIntended | app/models/schemas.py:67-72 | With the reason check always run, acceptance means approved, or rejected with a non-empty reason. Every accepted rejection carries a reason. |
| Schemas.ValidatorsDifferOnlyOnOmittedReason | app/models/schemas.py:67-72 | The validator as written and the intended one disagree exactly on a rejection whose reason field is omitted. |
| Schemas.OmittedReasonAccepted | app/models/schemas.py:67-72 | A rejection of (1, 2) with no reason field passes, carrying no reason. The intended validator refuses it. |
| Schemas.ValidateProcessing | app/models/schemas.py:82-87 | Accepted iff the code is completed or error. The code is carried unchanged. |
| Schemas.ValidateProgress | app/models/schemas.py:122 | Accepted iff 0 <= percentage <= 100, with both bounds included. The message is optional. |
| Schemas.CallbacksCarryOnlyExternalCodes | app/models/schemas.py:60-87 | No validated callback carries verification codes 0, 3 or 4. None carries processing codes 0, 2, 4 or 5. |
| ProcessService.CreateProcessEntry | app/services/process_service.py:56-70 | A new key gets a record with both phases pending and the verify request stamped `now`. Responses, conclusion and reason are unset, other records and the ledger are unchanged, and `GetProcess` then returns the record. An existing key is refused with no change. |
| ProcessService.GetProcess | app/services/process_service.py:86-91 | Returns a stored record whose key equals the given pair, or None exactly when no stored record has that key. |
| ProcessService.ProcessesForRequest | app/services/process_service.py:102 | A stored record is returned iff its id_request matches. |
| ProcessService.GetProcessIsAmongRequestProcesses | app/services/process_service.py:86-102 | The record found by key is among its request's records. |
| ProcessService.UpdateVerificationStatus | app/services/process_service.py:104-134 | The reason defaults to none. On a missing key it returns false and nothing changes. Otherwise it returns true and sets any given code and the response time `now`, whatever the previous code was. A truthy reason replaces the stored one, and a falsy one keeps it. Processing fields, identity, other records and the ledger are unchanged. |
| ProcessService.UpdateProcessingStatus | app/services/process_service.py:148-162 | On a missing key it returns false and nothing changes. Otherwise it returns true and sets the code and the conclusion time `now`. Verification fields, identity, other records and the ledger are unchanged. |
| ProcessService.UpdateProcessProgress | app/services/process_service.py:164-197 | The message defaults to none. On a missing key it returns false and nothing changes. Otherwise it appends exactly one entry (key, `now`, percentage, message). Earlier entries and all Processes are unchanged, and the numbering invariant is kept. |
| ProcessService.LatestProgress | app/services/process_service.py:209-214 | Returns None iff no entry has the key. Otherwise it returns an entry of the ledger with that key whose timestamp is at least every other entry's for that key. |
| ProcessService.GetLatestProgress | app/services/process_service.py:199-214 | The same, stated for the pair of ids over the stored ledger. |
| ProcessService.AppendThenLatest | app/services/process_service.py:184-214 | A report strictly later than every earlier one for its Process becomes the latest. A report earlier than an existing one does not, even though it was appended last. |
| ProcessService.AppendLeavesOtherLatest | app/services/process_service.py:184-193 | A report for one Process does not change another Process's latest progress. |
| ProcessService.ProcessingNeedsNoApproval | app/services/process_service.py:149-156 | A freshly created entry accepts a processing outcome at once, while its verification stays pending. |
| ProcessService.ProcessingIgnoresVerification | app/services/process_service.py:154-156 | Two stores whose record differs only in verification fields get identical processing writes. Each keeps its own verification. |
| ProcessService.LaterOutcomeOverwrites | app/services/process_service.py:123-125 | Approval followed by rejection succeeds both times. The rejection and its later timestamp stand. |
| ProcessService.ApprovalKeepsStaleReason | app/services/process_service.py:127-128 | An approval with no reason after a rejection leaves an approved record that still has the refusal reason. |
| ProcessService.ProgressAfterConclusion | app/services/process_service.py:177-193 | Progress is appended even after processing concluded as completed. |
| ProcessService.ValidatedVerificationKeepsRejectionsExplained | app/services/process_service.py:118-128 | A verification callback that passed the intended validation keeps the invariant that every stored rejection has a non-empty reason. |
| ProcessService.OtherOperationsKeepRejectionsExplained | app/services/process_service.py:56-193 | Creating entries, processing updates and progress reports keep that invariant. |
| ProcessService.ValidatedProgressKeepsPercentagesInRange | app/models/schemas.py:122 | Recording a progress callback that passed validation keeps every recorded percentage within [0, 100]. |
| ProcessService.UnvalidatedProgressLeavesRange | app/services/process_service.py:164-197 | The service itself does not check the range: 150 is refused by the schema but, passed directly, is stored and breaks the range invariant. |
| ProcessService.UnexplainedRejectionAsWritten | app/models/schemas.py:67-72 | With the validation as written, a rejection without a reason field reaches the store. This breaks the invariant on a freshly created entry. |
| ProcessService.RunRetains | app/services/process_service.py:42-197 | For any sequence of create, verification, processing and progress calls at any instants, the store invariant holds throughout. No Process is removed or changes its key, requester, person, document or request time, and the ledger only grows at its end. |
| RequestService.CreateRequest | app/services/request_service.py:47-58 | The new Request gets an id not in the table, the input's system name, a payload holding exactly the person and document type, and `dt_register = now`. Existing rows are unchanged and the lookup finds the new Request. |
| RequestService.CreateRequestRoundTrip | app/services/request_service.py:47-52 | The intake data can be read back unchanged from the stored Request. |
| RequestService.CreatedIdsDistinct | app/models/models.py:25 | Two successive creations get distinct ids, and the first row survives the second creation. |
| RequestService.GetRequestById | app/services/request_service.py:69 | Returns a stored Request whose id is the given id, or None exactly when no row has that id. |
| RequestService.EmptyDbValid | app/models/models.py:25 | A fresh table with no rows and the identity counter at 1 meets the table invariant that request creation requires. |
| RequestService.UpdateRequest | app/services/request_service.py:80-82 | It sets no field itself. It writes the caller's object, as a whole record, to the row it was loaded from and returns it. Other rows and the id counter are unchanged, and an unmodified object changes nothing. A row that does not exist fails, and so does an object whose id was changed, because the identity column cannot be updated; both fail with nothing written. |
| RequestService.UpdateNeverMovesRows | app/services/request_service.py:80-82 | Whatever the caller did to the object, no row other than the one it was loaded from changes. |

## Findings

| source | as written | input that shows it | evidently intended | confidence | as-written member | corrected member |
|---|---|---|---|---|---|---|
| app/models/schemas.py:67-72 | The reason validator is declared without `always=True`. Pydantic runs such a validator only when the field is present, so an omitted reason is never checked. | `{"id_request": 1, "id_system_process": 2, "st_system_verify": 2}` with no `ds_reason_verify_refuse` | A rejection without a reason is refused, as the validator's docstring and error message say. | medium, not executed. It rests on pydantic's rule for validators on fields that are not supplied. | Schemas.ValidateVerification | Schemas.ValidateVerificationIntended |

`Schemas.OmittedReasonAccepted` exhibits the input. `ProcessService.UnexplainedRejectionAsWritten`
follows that input into the store. `ProcessService.ValidatedVerificationKeepsRejectionsExplained`
proves that the intended validator keeps every stored rejection explained.

## Left out

- The clock: `datetime.now()` is the parameter `now`. Instants are integers that are only stored and compared.
- The ORM session: add, commit, refresh, query, transactions, rollbacks and logging. The database is a map of Processes, a map of Requests with an identity counter, and a sequence of progress entries.
- `NotificationService`: it is constructed but never called in the modelled code, and its implementation is not part of this model.
- `get_pending_requests`: it filters on `Request.st_request`, which the `Request` table does not define. The query would fail on the missing attribute, and no intended meaning is evident to model.
- `init_test_db.py`: a seeding script with file output and a catch-all rollback. It has no logic of its own.
- Shape-only schemas: `RequestResponse`, `SystemStatusResponse`, `StatusResponse`, `AdminAdvanceRequest` and `GenericResponse`. Pydantic configuration and type coercion of the inputs are also left out, because the validators receive values of the declared types.
- Floating point: percentages are `real`. NaN and infinities are not modelled, because percentages are only range-checked and stored.
- The `progress_percentage` column default 0.0: `update_process_progress` always passes a percentage, so no modelled operation reaches the default, and `ProgressEntry` has no default value.
- Timeout and retry policy (`verification_timeout_days`, `processing_timeout_days`, `max_retry_attempts`), `dt_system_request` and `st_system_process`: the services never read or write them, so they are inert fields.
- ProcessService.ProcessesForRequest: returns a set of records rather than a list, because the query specifies no order.
- ProcessService.LatestProgress: among entries with equal timestamps, the database may return any one. The model takes the one appended last, and its contract promises only a maximal timestamp.
- RequestService.CreateRequest: requires the table invariant (ids below the identity counter) instead of modelling the database's identity generator.
- Column widths and integer ranges: `nm_system` and `id_person` are `String(100)`, `system_type` and `tp_document` are `String(20)`, `ds_reason_verify_refuse` is `String(500)` and the addresses are `String(255)`; `Integer` columns are 32-bit. Strings are unbounded sequences and integers are unbounded, so a write the database would refuse for an over-long string or an out-of-range integer succeeds in the model.
- Models.InsertSystem: compares names with exact equality. The unique constraint is enforced under the database's collation, which is case-insensitive by default, so two names that differ only in case are both accepted here but not by the database.
- RequestService.UpdateRequest: treats the caller's object as a plain record and the commit as a write of that one object. In the code, `ct_payload` is a plain `JSON` column without mutation tracking: a reassigned payload and edited scalar columns are persisted, but a payload edited in place is not flushed, and the following refresh reloads the stored payload, so the code returns the old payload and leaves the row unchanged where the model writes the edited one. The commit also writes every other pending change of the session, so other rows stay unchanged only when nothing else in the session is dirty. A refused commit is reported as a failure with nothing written; the rollback and the exception it raises are not modelled.
- StatusCodes.StatusText: the labels are opaque constants. The completed label keeps the spelling "Concluu00eddo" found in the code, whose escape sequence lost its backslash.

=== FILE: common.dfy ===
/** Small shared vocabulary: optional values, results, instants and the
    Python notion of a "truthy" optional string. */
module Common {

  /** A value that may be absent (Python's `Optional[...]` / SQL NULL). */
  datatype Option<+T> = None | Some(value: T)

  /** Either a value or the reason an operation refused to produce one. */
  datatype Result<+T, +E> = Success(value: T) | Failure(error: E)

  /** An instant as read from the clock. The clock is not modelled: every
      operation that stamps a record takes the current instant `now` as an
      argument. Instants are only compared and stored. */
  type Time = int

  /** Python's truth test on an `Optional[str]`: None and "" are falsy,
      every other string is truthy. */
  predicate Truthy(s: Option<string>) {
    s.Some? && s.value != ""
  }
}

=== FILE: models.dfy ===
/** Record shapes of the persisted tables: requests, processing systems,
    per-system processes and their progress entries. Columns are renamed to
    Dafny style; each field notes the column it stands for. Nullable columns
    that every writer fills are plain values. */
module Models {
  import opened Common

  // ---------------------------------------------------------------------
  // tb_request
  // ---------------------------------------------------------------------

  /** The JSON payload of a request: exactly the person and document type. */
  datatype Payload = Payload(personId: string, documentType: string)

  datatype Request = Request(
    id: int,               // id_request, autoincrement
    registeredAt: Time,    // dt_register
    payload: Payload,      // ct_payload
    systemName: string)    // nm_system

  // ---------------------------------------------------------------------
  // tb_dom_system
  // ---------------------------------------------------------------------

  const DefaultVerificationTimeoutDays: int := 7
  const DefaultProcessingTimeoutDays: int := 30
  const DefaultMaxRetryAttempts: int := 5

  /** A registered system. The three policy columns are stored but no
      service of this model reads them. */
  datatype DomSystem = DomSystem(
    id: int,                          // id_dom_system
    name: string,                     // nm_system, unique
    systemType: string,               // system_type: "process" or "requester"
    verifyAddress: Option<string>,    // api_verify_address
    requestAddress: Option<string>,   // api_request_address
    statusAddress: Option<string>,    // api_status_address
    verificationTimeoutDays: int,     // verification_timeout_days
    processingTimeoutDays: int,       // processing_timeout_days
    maxRetryAttempts: int)            // max_retry_attempts

  /** The system table, keyed by id, with the unique constraint on names. */
  predicate UniqueNames(systems: map<int, DomSystem>) {
    forall a, b :: a in systems && b in systems && systems[a].name == systems[b].name ==> a == b
  }

  predicate KeysAreIds(systems: map<int, DomSystem>) {
    forall a :: a in systems ==> systems[a].id == a
  }

  datatype InsertError = DuplicateId | DuplicateName

  /** Inserting a system row: the database refuses a used id (primary key)
      or a used name (unique constraint); a policy column left out takes its
      column default. */
  function InsertSystem(
    systems: map<int, DomSystem>, id: int, name: string, systemType: string,
    verifyAddress: Option<string>, requestAddress: Option<string>, statusAddress: Option<string>,
    verificationTimeoutDays: Option<int>, processingTimeoutDays: Option<int>, maxRetryAttempts: Option<int>
  ): (r: Result<map<int, DomSystem>, InsertError>)
    ensures r.Failure? <==> id in systems || exists a :: a in systems && systems[a].name == name
    ensures r.Success? ==>
      && r.value.Keys == systems.Keys + {id}
      && (forall a :: a in systems ==> r.value[a] == systems[a])
      && r.value[id].id == id
      && r.value[id].name == name
      && r.value[id].systemType == systemType
      && r.value[id].verifyAddress == verifyAddress
      && r.value[id].requestAddress == requestAddress
      && r.value[id].statusAddress == statusAddress
      && r.value[id].verificationTimeoutDays
         == (if verificationTimeoutDays.None? then 7 else verificationTimeoutDays.value)
      && r.value[id].processingTimeoutDays
         == (if processingTimeoutDays.None? then 30 else processingTimeoutDays.value)
      && r.value[id].maxRetryAttempts
         == (if maxRetryAttempts.None? then 5 else maxRetryAttempts.value)
    ensures r.Success? && UniqueNames(systems) ==> UniqueNames(r.value)
    ensures r.Success? && KeysAreIds(systems) ==> KeysAreIds(r.value)
  {
    if id in systems then Failure(DuplicateId)
    else if exists a :: a in systems && systems[a].name == name then Failure(DuplicateName)
    else
      var row := DomSystem(
        id, name, systemType, verifyAddress, requestAddress, statusAddress,
        match verificationTimeoutDays case Some(d) => d case None => DefaultVerificationTimeoutDays,
        match processingTimeoutDays case Some(d) => d case None => DefaultProcessingTimeoutDays,
        match maxRetryAttempts case Some(n) => n case None => DefaultMaxRetryAttempts);
      Success(systems[id := row])
  }

  // ---------------------------------------------------------------------
  // tb_process
  // ---------------------------------------------------------------------

  /** Composite primary key (id_request, id_system_process); there is no
      surrogate id, so at most one Process exists per pair. */
  datatype ProcessKey = ProcessKey(request: int, system: int)

  datatype Process = Process(
    key: ProcessKey,                 // id_request, id_system_process
    requesterSystem: int,            // id_system_requester
    personId: string,                // id_person
    documentType: string,            // tp_document
    verifyRequestedAt: Option<Time>, // dt_system_verify
    verifyRespondedAt: Option<Time>, // dt_system_verify_response
    requestSentAt: Option<Time>,     // dt_system_request, never written by the services
    concludedAt: Option<Time>,       // dt_system_conclusion
    verifyCode: int,                 // st_system_verify, see StatusCodes.VerifyStatus
    refuseReason: Option<string>,    // ds_reason_verify_refuse
    requestCode: int,                // st_system_request, see StatusCodes.RequestStatus
    ackCode: Option<int>)            // st_system_process, never written by the services

  /** Fields no status update touches. */
  predicate SameIdentity(p: Process, q: Process) {
    && p.key == q.key
    && p.requesterSystem == q.requesterSystem
    && p.personId == q.personId
    && p.documentType == q.documentType
    && p.verifyRequestedAt == q.verifyRequestedAt
    && p.requestSentAt == q.requestSentAt
    && p.ackCode == q.ackCode
  }

  /** Fields of the verification phase. */
  predicate SameVerifyPhase(p: Process, q: Process) {
    && p.verifyCode == q.verifyCode
    && p.verifyRespondedAt == q.verifyRespondedAt
    && p.refuseReason == q.refuseReason
  }

  /** Fields of the processing phase. */
  predicate SameRequestPhase(p: Process, q: Process) {
    && p.requestCode == q.requestCode
    && p.concludedAt == q.concludedAt
  }

  /** The three groups cover every field of a Process, so a statement that
      two groups are unchanged leaves exactly the third free. */
  lemma GroupsCoverAllFields(p: Process, q: Process)
    requires SameIdentity(p, q) && SameVerifyPhase(p, q) && SameRequestPhase(p, q)
    ensures p == q
  {
  }

  // ---------------------------------------------------------------------
  // tb_process_progress
  // ---------------------------------------------------------------------

  /** One progress report. Entries have their own autoincrement id, so a
      Process may have any number of them. */
  datatype ProgressEntry = ProgressEntry(
    id: int,                  // id_process_progress
    key: ProcessKey,          // id_request, id_system_process
    at: Time,                 // dt_progress_update, not null
    percentage: real,         // progress_percentage
    message: Option<string>)  // progress_message
}

=== FILE: process_service.dfy ===
/** The per-system Process store and its progress ledger.

    The database is a map from the composite key (request, processing
    system) to the one Process stored under it, plus an append-only sequence
    of progress entries. The four writers are total functions from the
    state, their arguments and the current instant `now` to a result and the
    new state; the three lookups take the state and a key. The writers write exactly the fields they are given: none of
    them consults the other phase, the previous code or the system's timeout
    policy. */
module ProcessService {
  import opened Common
  import opened Models
  import opened StatusCodes
  import Schemas

  datatype ProcessDb = ProcessDb(processes: map<ProcessKey, Process>, ledger: seq<ProgressEntry>)

  /** Each Process is stored under its own key. */
  predicate KeysMatch(processes: map<ProcessKey, Process>) {
    forall k :: k in processes ==> processes[k].key == k
  }

  /** Progress ids follow insertion order. The identity column only promises
      increasing values; numbering them 1, 2, 3, ... without gaps is a
      choice of this model. */
  predicate LedgerNumbered(ledger: seq<ProgressEntry>) {
    forall i :: 0 <= i < |ledger| ==> ledger[i].id == i + 1
  }

  /** Every progress entry belongs to a stored Process. */
  predicate LedgerKeysKnown(db: ProcessDb) {
    forall i :: 0 <= i < |db.ledger| ==> db.ledger[i].key in db.processes
  }

  predicate Valid(db: ProcessDb) {
    KeysMatch(db.processes) && LedgerNumbered(db.ledger) && LedgerKeysKnown(db)
  }

  /** Only the Process under `key` may differ; no key is added or removed. */
  predicate OthersUnchanged(before: map<ProcessKey, Process>, after: map<ProcessKey, Process>, key: ProcessKey) {
    && before.Keys == after.Keys
    && forall k :: k in before && k != key ==> after[k] == before[k]
  }

  datatype StoreError = DuplicateKey

  // ---------------------------------------------------------------------
  // create_process_entry
  // ---------------------------------------------------------------------

  /** Stores a fresh Process: both phases pending, the verification request
      stamped `now`, every response, conclusion and reason column unset. A
      key that is already stored violates the primary key and the insert is
      refused with nothing written. */
  function CreateProcessEntry(
    db: ProcessDb, idRequest: int, idSystemProcess: int, requesterSystem: int,
    personId: string, documentType: string, now: Time
  ): (out: (Result<Process, StoreError>, ProcessDb))
    ensures ProcessKey(idRequest, idSystemProcess) in db.processes ==> out == (Failure(DuplicateKey), db)
    ensures ProcessKey(idRequest, idSystemProcess) !in db.processes ==>
      && out.0.Success?
      && var p := out.0.value;
      && p.key == ProcessKey(idRequest, idSystemProcess)
      && p.requesterSystem == requesterSystem
      && p.personId == personId
      && p.documentType == documentType
      && VerifyFromCode(p.verifyCode) == Some(VerifyPending)
      && RequestFromCode(p.requestCode) == Some(RequestPending)
      && p.verifyRequestedAt == Some(now)
      && p.verifyRespondedAt.None? && p.requestSentAt.None? && p.concludedAt.None?
      && p.refuseReason.None? && p.ackCode.None?
      && out.1.processes.Keys == db.processes.Keys + {p.key}
      && (forall k :: k in db.processes ==> out.1.processes[k] == db.processes[k])
      && out.1.ledger == db.ledger
      && GetProcess(out.1, idRequest, idSystemProcess) == Some(p)
    ensures Valid(db) ==> Valid(out.1)
  {
    var key := ProcessKey(idRequest, idSystemProcess);
    if key in db.processes then (Failure(DuplicateKey), db)
    else
      var p := Process(
        key, requesterSystem, personId, documentType,
        Some(now), None, None, None,
        DefaultVerifyCode, None, DefaultRequestCode, None);
      (Success(p), db.(processes := db.processes[key := p]))
  }

  // ---------------------------------------------------------------------
  // get_process, get_processes_for_request
  // ---------------------------------------------------------------------

  /** The Process whose key columns equal the given pair, or None when no
      stored Process has that pair. */
  function GetProcess(db: ProcessDb, idRequest: int, idSystemProcess: int): (r: Option<Process>)
    ensures r.Some? ==> r.value in db.processes.Values
    ensures KeysMatch(db.processes) ==>
      && (r.Some? ==> r.value.key == ProcessKey(idRequest, idSystemProcess))
      && (r.None? <==> forall p :: p in db.processes.Values ==> p.key != ProcessKey(idRequest, idSystemProcess))
  {
    var key := ProcessKey(idRequest, idSystemProcess);
    if key in db.processes then Some(db.processes[key]) else None
  }

  /** All Processes of one request, one per processing system.
      get_processes_for_request returns them as a list in database order;
      the model returns the set. */
  function ProcessesForRequest(db: ProcessDb, idRequest: int): (r: set<Process>)
    ensures r <= db.processes.Values
    ensures KeysMatch(db.processes) ==>
      forall p :: p in db.processes.Values ==> (p in r <==> p.key.request == idRequest)
  {
    set k | k in db.processes && k.request == idRequest :: db.processes[k]
  }

  /** Looking up a Process by key finds one of its request's Processes. */
  lemma GetProcessIsAmongRequestProcesses(db: ProcessDb, idRequest: int, idSystemProcess: int)
    requires KeysMatch(db.processes)
    requires GetProcess(db, idRequest, idSystemProcess).Some?
    ensures GetProcess(db, idRequest, idSystemProcess).value in ProcessesForRequest(db, idRequest)
  {
  }

  // ---------------------------------------------------------------------
  // update_verification_status
  // ---------------------------------------------------------------------

  /** Overwrites the verification outcome of an existing Process with any
      code, whatever the previous one was, and stamps the response with
      `now`. The refusal reason is replaced only by a truthy reason. A missing
      Process yields false and no change. */
  function UpdateVerificationStatus(
    db: ProcessDb, idRequest: int, idSystemProcess: int, code: int, reason: Option<string> := None, now: Time
  ): (out: (bool, ProcessDb))
    ensures ProcessKey(idRequest, idSystemProcess) !in db.processes ==> out == (false, db)
    ensures ProcessKey(idRequest, idSystemProcess) in db.processes ==>
      && out.0
      && out.1.ledger == db.ledger
      && OthersUnchanged(db.processes, out.1.processes, ProcessKey(idRequest, idSystemProcess))
      && var before, after := db.processes[ProcessKey(idRequest, idSystemProcess)],
                              out.1.processes[ProcessKey(idRequest, idSystemProcess)];
      && SameIdentity(before, after)
      && SameRequestPhase(before, after)
      && after.verifyCode == code
      && after.verifyRespondedAt == Some(now)
      && (Truthy(reason) ==> after.refuseReason == reason)
      && (!Truthy(reason) ==> after.refuseReason == before.refuseReason)
    ensures Valid(db) ==> Valid(out.1)
  {
    var key := ProcessKey(idRequest, idSystemProcess);
    if key !in db.processes then (false, db)
    else
      var p := db.processes[key];
      var p' := p.(verifyCode := code, verifyRespondedAt := Some(now));
      var p'' := if Truthy(reason) then p'.(refuseReason := reason) else p';
      (true, db.(processes := db.processes[key := p'']))
  }

  // ---------------------------------------------------------------------
  // update_processing_status
  // ---------------------------------------------------------------------

  /** Overwrites the processing outcome of an existing Process with any code
      and stamps the conclusion with `now`. The verification fields are
      neither read nor written. A missing Process yields false and no change. */
  function UpdateProcessingStatus(
    db: ProcessDb, idRequest: int, idSystemProcess: int, code: int, now: Time
  ): (out: (bool, ProcessDb))
    ensures ProcessKey(idRequest, idSystemProcess) !in db.processes ==> out == (false, db)
    ensures ProcessKey(idRequest, idSystemProcess) in db.processes ==>
      && out.0
      && out.1.ledger == db.ledger
      && OthersUnchanged(db.processes, out.1.processes, ProcessKey(idRequest, idSystemProcess))
      && var before, after := db.processes[ProcessKey(idRequest, idSystemProcess)],
                              out.1.processes[ProcessKey(idRequest, idSystemProcess)];
      && SameIdentity(before, after)
      && SameVerifyPhase(before, after)
      && after.requestCode == code
      && after.concludedAt == Some(now)
    ensures Valid(db) ==> Valid(out.1)
  {
    var key := ProcessKey(idRequest, idSystemProcess);
    if key !in db.processes then (false, db)
    else
      var p := db.processes[key];
      (true, db.(processes := db.processes[key := p.(requestCode := code, concludedAt := Some(now))]))
  }

  // ---------------------------------------------------------------------
  // update_process_progress, get_latest_progress
  // ---------------------------------------------------------------------

  /** Appends one progress entry for an existing Process, stamped `now`,
      under the next id. The percentage is stored as given and the Process
      itself is not looked at beyond its existence. A missing Process yields
      false and no change. */
  function UpdateProcessProgress(
    db: ProcessDb, idRequest: int, idSystemProcess: int, percentage: real, message: Option<string> := None, now: Time
  ): (out: (bool, ProcessDb))
    ensures ProcessKey(idRequest, idSystemProcess) !in db.processes ==> out == (false, db)
    ensures ProcessKey(idRequest, idSystemProcess) in db.processes ==>
      && out.0
      && out.1.processes == db.processes
      && |out.1.ledger| == |db.ledger| + 1
      && out.1.ledger[..|db.ledger|] == db.ledger
      && out.1.ledger[|db.ledger|].key == ProcessKey(idRequest, idSystemProcess)
      && out.1.ledger[|db.ledger|].at == now
      && out.1.ledger[|db.ledger|].percentage == percentage
      && out.1.ledger[|db.ledger|].message == message
    ensures Valid(db) ==> Valid(out.1)
  {
    var key := ProcessKey(idRequest, idSystemProcess);
    if key !in db.processes then (false, db)
    else (true, db.(ledger := db.ledger + [ProgressEntry(|db.ledger| + 1, key, now, percentage, message)]))
  }

  /** The entry with the greatest timestamp among those for `key`, or None
      when there is none. Among entries with equal timestamps the database
      order is unspecified; this model takes the one appended last. */
  function LatestProgress(ledger: seq<ProgressEntry>, key: ProcessKey): (r: Option<ProgressEntry>)
    ensures r.None? <==> forall i :: 0 <= i < |ledger| ==> ledger[i].key != key
    ensures r.Some? ==>
      && r.value in ledger
      && r.value.key == key
      && forall i :: 0 <= i < |ledger| && ledger[i].key == key ==> ledger[i].at <= r.value.at
    decreases |ledger|
  {
    if |ledger| == 0 then None
    else
      var rest := LatestProgress(ledger[..|ledger| - 1], key);
      var last := ledger[|ledger| - 1];
      if last.key != key then rest
      else if rest.None? || rest.value.at <= last.at then Some(last)
      else rest
  }

  /** get_latest_progress: the latest entry for the Process under the pair. */
  function GetLatestProgress(db: ProcessDb, idRequest: int, idSystemProcess: int): (r: Option<ProgressEntry>)
    ensures r.Some? ==> r.value in db.ledger && r.value.key == ProcessKey(idRequest, idSystemProcess)
    ensures r.None? <==> forall e :: e in db.ledger ==> e.key != ProcessKey(idRequest, idSystemProcess)
    ensures r.Some? ==> forall e :: e in db.ledger && e.key == r.value.key ==> e.at <= r.value.at
  {
    LatestProgress(db.ledger, ProcessKey(idRequest, idSystemProcess))
  }

  /** A report strictly later than every earlier report of the same Process
      becomes its latest progress; a report earlier than some existing one
      does not, even though it was appended last: the ledger is read by
      timestamp, not by insertion order. */
  lemma AppendThenLatest(
    db: ProcessDb, idRequest: int, idSystemProcess: int, percentage: real, message: Option<string>, now: Time)
    requires ProcessKey(idRequest, idSystemProcess) in db.processes
    ensures var after := UpdateProcessProgress(db, idRequest, idSystemProcess, percentage, message, now).1;
      && ((forall e :: e in db.ledger && e.key == ProcessKey(idRequest, idSystemProcess) ==> e.at < now) ==>
           GetLatestProgress(after, idRequest, idSystemProcess) == Some(after.ledger[|db.ledger|]))
      && ((exists e :: e in db.ledger && e.key == ProcessKey(idRequest, idSystemProcess) && e.at > now) ==>
           GetLatestProgress(after, idRequest, idSystemProcess).value.at > now)
  {
  }

  /** A report for one Process leaves every other Process's latest progress
      as it was. */
  lemma AppendLeavesOtherLatest(
    db: ProcessDb, idRequest: int, idSystemProcess: int, percentage: real, message: Option<string>, now: Time,
    other: ProcessKey)
    requires other != ProcessKey(idRequest, idSystemProcess)
    ensures LatestProgress(UpdateProcessProgress(db, idRequest, idSystemProcess, percentage, message, now).1.ledger, other)
            == LatestProgress(db.ledger, other)
  {
  }

  // ---------------------------------------------------------------------
  // What the operations do not do
  // ---------------------------------------------------------------------

  /** Processing can conclude on a Process whose verification is still
      pending: a freshly created entry accepts a processing outcome at once,
      and keeps its pending verification. */
  lemma ProcessingNeedsNoApproval(
    db: ProcessDb, idRequest: int, idSystemProcess: int, requesterSystem: int,
    personId: string, documentType: string, code: int, t0: Time, t1: Time)
    requires ProcessKey(idRequest, idSystemProcess) !in db.processes
    ensures var created := CreateProcessEntry(db, idRequest, idSystemProcess, requesterSystem, personId, documentType, t0).1;
      var out := UpdateProcessingStatus(created, idRequest, idSystemProcess, code, t1);
      && out.0
      && var p := out.1.processes[ProcessKey(idRequest, idSystemProcess)];
      && VerifyFromCode(p.verifyCode) == Some(VerifyPending)
      && p.requestCode == code
  {
  }

  /** The processing update is blind to the verification phase: two stores
      whose Process differs only in verification fields get the same
      processing fields written, and each keeps its own verification. */
  lemma ProcessingIgnoresVerification(
    db1: ProcessDb, db2: ProcessDb, idRequest: int, idSystemProcess: int, code: int, now: Time)
    requires ProcessKey(idRequest, idSystemProcess) in db1.processes && ProcessKey(idRequest, idSystemProcess) in db2.processes
    requires SameIdentity(db1.processes[ProcessKey(idRequest, idSystemProcess)], db2.processes[ProcessKey(idRequest, idSystemProcess)])
    requires SameRequestPhase(db1.processes[ProcessKey(idRequest, idSystemProcess)], db2.processes[ProcessKey(idRequest, idSystemProcess)])
    ensures var out1 := UpdateProcessingStatus(db1, idRequest, idSystemProcess, code, now);
      var out2 := UpdateProcessingStatus(db2, idRequest, idSystemProcess, code, now);
      && out1.0 == out2.0
      && SameIdentity(out1.1.processes[ProcessKey(idRequest, idSystemProcess)], out2.1.processes[ProcessKey(idRequest, idSystemProcess)])
      && SameRequestPhase(out1.1.processes[ProcessKey(idRequest, idSystemProcess)], out2.1.processes[ProcessKey(idRequest, idSystemProcess)])
      && SameVerifyPhase(out1.1.processes[ProcessKey(idRequest, idSystemProcess)], db1.processes[ProcessKey(idRequest, idSystemProcess)])
      && SameVerifyPhase(out2.1.processes[ProcessKey(idRequest, idSystemProcess)], db2.processes[ProcessKey(idRequest, idSystemProcess)])
  {
  }

  /** There is no transition guard and no conflict rule: an approval followed
      by a rejection succeeds twice and the rejection stands. */
  lemma LaterOutcomeOverwrites(
    db: ProcessDb, idRequest: int, idSystemProcess: int, reason: string, t1: Time, t2: Time)
    requires ProcessKey(idRequest, idSystemProcess) in db.processes
    requires reason != ""
    ensures var first := UpdateVerificationStatus(db, idRequest, idSystemProcess, Approved.Code(), None, t1);
      var second := UpdateVerificationStatus(first.1, idRequest, idSystemProcess, Rejected.Code(), Some(reason), t2);
      && first.0 && second.0
      && VerifyFromCode(second.1.processes[ProcessKey(idRequest, idSystemProcess)].verifyCode) == Some(Rejected)
      && second.1.processes[ProcessKey(idRequest, idSystemProcess)].verifyRespondedAt == Some(t2)
  {
  }

  /** An approval without a reason keeps the reason of an earlier rejection:
      the stored record reads approved with a refusal reason. */
  lemma ApprovalKeepsStaleReason(
    db: ProcessDb, idRequest: int, idSystemProcess: int, reason: string, t1: Time, t2: Time)
    requires ProcessKey(idRequest, idSystemProcess) in db.processes
    requires reason != ""
    ensures var first := UpdateVerificationStatus(db, idRequest, idSystemProcess, Rejected.Code(), Some(reason), t1);
      var second := UpdateVerificationStatus(first.1, idRequest, idSystemProcess, Approved.Code(), None, t2);
      && VerifyFromCode(second.1.processes[ProcessKey(idRequest, idSystemProcess)].verifyCode) == Some(Approved)
      && second.1.processes[ProcessKey(idRequest, idSystemProcess)].refuseReason == Some(reason)
  {
  }

  /** Progress is recorded whatever state the Process is in, including after
      its processing has concluded. */
  lemma ProgressAfterConclusion(
    db: ProcessDb, idRequest: int, idSystemProcess: int, percentage: real, t1: Time, t2: Time)
    requires ProcessKey(idRequest, idSystemProcess) in db.processes
    ensures var concluded := UpdateProcessingStatus(db, idRequest, idSystemProcess, Completed.Code(), t1).1;
      var out := UpdateProcessProgress(concluded, idRequest, idSystemProcess, percentage, None, t2);
      && out.0
      && |out.1.ledger| == |db.ledger| + 1
  {
  }

  // ---------------------------------------------------------------------
  // The verification callback and the store together
  // ---------------------------------------------------------------------

  /** Every stored rejection carries a non-empty refusal reason. */
  predicate RejectionsExplained(db: ProcessDb) {
    forall k :: k in db.processes && db.processes[k].verifyCode == Rejected.Code() ==> Truthy(db.processes[k].refuseReason)
  }

  /** Applying a verification callback that passed the intended validation
      keeps every stored rejection explained. */
  lemma ValidatedVerificationKeepsRejectionsExplained(
    db: ProcessDb, idRequest: int, idSystemProcess: int, status: int, reason: Schemas.Field<string>, now: Time)
    requires RejectionsExplained(db)
    requires Schemas.ValidateVerificationIntended(idRequest, idSystemProcess, status, reason).Success?
    ensures var v := Schemas.ValidateVerificationIntended(idRequest, idSystemProcess, status, reason).value;
      RejectionsExplained(UpdateVerificationStatus(db, v.key.request, v.key.system, v.status, v.reason, now).1)
  {
  }

  /** Creating entries and recording processing outcomes or progress keep
      every stored rejection explained as well. */
  lemma OtherOperationsKeepRejectionsExplained(
    db: ProcessDb, idRequest: int, idSystemProcess: int, requesterSystem: int,
    personId: string, documentType: string, code: int, percentage: real, message: Option<string>, now: Time)
    requires RejectionsExplained(db)
    ensures RejectionsExplained(CreateProcessEntry(db, idRequest, idSystemProcess, requesterSystem, personId, documentType, now).1)
    ensures RejectionsExplained(UpdateProcessingStatus(db, idRequest, idSystemProcess, code, now).1)
    ensures RejectionsExplained(UpdateProcessProgress(db, idRequest, idSystemProcess, percentage, message, now).1)
  {
  }

  /** As written, the validation lets a rejection through without a reason
      field, and the store then holds a rejection with no reason. */
  lemma UnexplainedRejectionAsWritten(requesterSystem: int, personId: string, documentType: string, t0: Time, t1: Time)
    ensures var created := CreateProcessEntry(ProcessDb(map[], []), 1, 2, requesterSystem, personId, documentType, t0).1;
      var v := Schemas.ValidateVerification(1, 2, Rejected.Code(), Schemas.Omitted);
      && v.Success?
      && RejectionsExplained(created)
      && !RejectionsExplained(UpdateVerificationStatus(created, 1, 2, v.value.status, v.value.reason, t1).1)
  {
  }

  /** Every recorded percentage lies in [0, 100]. */
  predicate PercentagesInRange(db: ProcessDb) {
    forall i :: 0 <= i < |db.ledger| ==> 0.0 <= db.ledger[i].percentage <= 100.0
  }

  /** Recording a progress callback that passed validation keeps every
      recorded percentage in range, and so do the other writers. */
  lemma ValidatedProgressKeepsPercentagesInRange(
    db: ProcessDb, idRequest: int, idSystemProcess: int, percentage: real, message: Schemas.Field<string>, now: Time)
    requires PercentagesInRange(db)
    requires Schemas.ValidateProgress(idRequest, idSystemProcess, percentage, message).Success?
    ensures var u := Schemas.ValidateProgress(idRequest, idSystemProcess, percentage, message).value;
      PercentagesInRange(UpdateProcessProgress(db, u.key.request, u.key.system, u.percentage, u.message, now).1)
  {
  }

  /** Without validation, an out-of-range percentage reaches the ledger: the
      bound lives in the callback schema alone. */
  lemma UnvalidatedProgressLeavesRange(db: ProcessDb, idRequest: int, idSystemProcess: int, now: Time)
    requires ProcessKey(idRequest, idSystemProcess) in db.processes
    ensures Schemas.ValidateProgress(idRequest, idSystemProcess, 150.0, Schemas.Omitted).Failure?
    ensures !PercentagesInRange(UpdateProcessProgress(db, idRequest, idSystemProcess, 150.0, now := now).1)
  {
    var out := UpdateProcessProgress(db, idRequest, idSystemProcess, 150.0, now := now).1;
    assert out.ledger[|db.ledger|].percentage == 150.0;
  }

  // ---------------------------------------------------------------------
  // Any sequence of service calls
  // ---------------------------------------------------------------------

  /** One call of the service that writes, with its arguments. */
  datatype Call =
    | CreateEntry(idRequest: int, idSystemProcess: int, requesterSystem: int, personId: string, documentType: string)
    | SetVerification(idRequest: int, idSystemProcess: int, code: int, reason: Option<string>)
    | SetProcessing(idRequest: int, idSystemProcess: int, code: int)
    | AddProgress(idRequest: int, idSystemProcess: int, percentage: real, message: Option<string>)

  /** The state after one call made at instant `now`. */
  function Apply(db: ProcessDb, call: Call, now: Time): ProcessDb {
    match call
    case CreateEntry(r, s, req, person, doc) => CreateProcessEntry(db, r, s, req, person, doc, now).1
    case SetVerification(r, s, code, reason) => UpdateVerificationStatus(db, r, s, code, reason, now).1
    case SetProcessing(r, s, code) => UpdateProcessingStatus(db, r, s, code, now).1
    case AddProgress(r, s, p, m) => UpdateProcessProgress(db, r, s, p, m, now).1
  }

  /** The state after a sequence of timed calls, in order. */
  function Run(db: ProcessDb, calls: seq<(Call, Time)>): ProcessDb
    decreases |calls|
  {
    if |calls| == 0 then db else Run(Apply(db, calls[0].0, calls[0].1), calls[1..])
  }

  /** What survives a state change: no Process disappears or changes its
      identity, and the ledger only grows at its end. */
  predicate Retains(before: ProcessDb, after: ProcessDb) {
    && before.processes.Keys <= after.processes.Keys
    && (forall k :: k in before.processes ==> SameIdentity(before.processes[k], after.processes[k]))
    && before.ledger <= after.ledger
  }

  /** Whatever calls are made, in whatever order and at whatever instants,
      the store stays well formed, no Process is ever removed or
      re-identified, and no progress entry is ever changed or dropped. */
  lemma {:induction false} RunRetains(db: ProcessDb, calls: seq<(Call, Time)>)
    requires Valid(db)
    ensures Valid(Run(db, calls))
    ensures Retains(db, Run(db, calls))
    decreases |calls|
  {
    if |calls| > 0 {
      var next := Apply(db, calls[0].0, calls[0].1);
      assert Valid(next) && Retains(db, next);
      RunRetains(next, calls[1..]);
      var last := Run(next, calls[1..]);
      assert Run(db, calls) == last;
      assert db.ledger <= next.ledger <= last.ledger;
    }
  }
}

=== FILE: request_service.dfy ===
/** The request table: creation of a Request from an intake payload, lookup
    by id, and the update that persists a caller's changes. */
module RequestService {
  import opened Common
  import opened Models

  /** The rows of tb_request and the identity counter that numbers them. */
  datatype RequestDb = RequestDb(rows: map<int, Request>, nextId: int)

  /** The identity counter starts at 1 and stays above every id it issued;
      each row is stored under its own id. */
  predicate Valid(db: RequestDb) {
    && db.nextId >= 1
    && forall id :: id in db.rows ==> 1 <= id < db.nextId && db.rows[id].id == id
  }

  /** A fresh table: no rows, and the identity counter at its first value. */
  const EmptyDb: RequestDb := RequestDb(map[], 1)

  /** A fresh table meets the invariant, so creation can start from it. */
  lemma EmptyDbValid()
    ensures Valid(EmptyDb)
  {
  }

  /** The intake payload: requesting system, person and document type. */
  datatype RequestCreate = RequestCreate(systemName: string, personId: string, documentType: string)

  /** Stores a new Request under a fresh id, registered at `now`, whose
      system name and payload are exactly those of the intake data. */
  function CreateRequest(db: RequestDb, data: RequestCreate, now: Time): (out: (Request, RequestDb))
    requires Valid(db)
    ensures out.0.id !in db.rows
    ensures out.0.systemName == data.systemName
    ensures out.0.payload.personId == data.personId && out.0.payload.documentType == data.documentType
    ensures out.0.registeredAt == now
    ensures out.1.rows.Keys == db.rows.Keys + {out.0.id}
    ensures forall id :: id in db.rows ==> out.1.rows[id] == db.rows[id]
    ensures GetRequestById(out.1, out.0.id) == Some(out.0)
    ensures Valid(out.1)
  {
    var r := Request(db.nextId, now, Payload(data.personId, data.documentType), data.systemName);
    (r, RequestDb(db.rows[r.id := r], db.nextId + 1))
  }

  /** The stored Request keeps everything the intake data said: the data can
      be read back from it. */
  lemma CreateRequestRoundTrip(db: RequestDb, data: RequestCreate, now: Time)
    requires Valid(db)
    ensures var r := CreateRequest(db, data, now).0;
      RequestCreate(r.systemName, r.payload.personId, r.payload.documentType) == data
  {
  }

  /** Two successive creations get distinct ids. */
  lemma CreatedIdsDistinct(db: RequestDb, a: RequestCreate, b: RequestCreate, t1: Time, t2: Time)
    requires Valid(db)
    ensures var first := CreateRequest(db, a, t1);
      var second := CreateRequest(first.1, b, t2);
      first.0.id != second.0.id && first.1.rows[first.0.id] == second.1.rows[first.0.id]
  {
  }

  /** The Request whose id equals `id`, or None when no row has it. */
  function GetRequestById(db: RequestDb, id: int): (r: Option<Request>)
    ensures r.Some? ==> r.value in db.rows.Values
    ensures Valid(db) ==>
      && (r.Some? ==> r.value.id == id)
      && (r.None? <==> forall k :: k in db.rows ==> db.rows[k].id != id)
  {
    if id in db.rows then Some(db.rows[id]) else None
  }

  datatype UpdateError = NotPersisted | IdentityChanged

  /** update_request sets no field itself: it commits whatever the caller
      changed on the object and returns that same object. The object is the
      one loaded from row `rowId`; the session keeps that identity whatever
      the caller did to the object's id field. A row that does not exist
      cannot be refreshed, and a changed id is an update of the identity
      column, which the database refuses; both fail with nothing written. */
  function UpdateRequest(db: RequestDb, rowId: int, request: Request): (out: (Result<Request, UpdateError>, RequestDb))
    ensures rowId !in db.rows ==> out == (Failure(NotPersisted), db)
    ensures rowId in db.rows && request.id != rowId ==> out == (Failure(IdentityChanged), db)
    ensures rowId in db.rows && request.id == rowId ==>
      && out.0 == Success(request)
      && out.1.nextId == db.nextId
      && out.1.rows.Keys == db.rows.Keys
      && out.1.rows[rowId] == request
      && forall id :: id in db.rows && id != rowId ==> out.1.rows[id] == db.rows[id]
    ensures rowId in db.rows && db.rows[rowId] == request ==> out.1 == db
    ensures Valid(db) ==> Valid(out.1)
  {
    if rowId !in db.rows then (Failure(NotPersisted), db)
    else if request.id != rowId then (Failure(IdentityChanged), db)
    else (Success(request), db.(rows := db.rows[rowId := request]))
  }

  /** Moving a loaded request onto another row's id never overwrites that
      row: whatever the object holds, only its own row can change. */
  lemma UpdateNeverMovesRows(db: RequestDb, rowId: int, request: Request)
    requires Valid(db)
    ensures forall id :: id in db.rows && id != rowId ==>
      UpdateRequest(db, rowId, request).1.rows[id] == db.rows[id]
  {
  }
}

=== FILE: schemas.dfy ===
/** Validation of the inbound callbacks: which verification codes,
    processing codes and percentages an external system may submit.

    A validator attached to a field runs when the field is present in the
    payload, including when it is present as null; a field left out of the
    payload takes its default without any validator running, because none
    of these validators asks to run always. */
module Schemas {
  import opened Common
  import opened Models
  import opened StatusCodes

  /** An optional JSON field as it arrives. */
  datatype Field<T> = Omitted | Null | Given(value: T)

  /** The value a field ends up with: a missing field takes the default None. */
  function FieldValue<T>(f: Field<T>): Option<T> {
    match f
    case Omitted => None
    case Null => None
    case Given(v) => Some(v)
  }

  datatype SchemaError = VerifyStatusNotAllowed | ReasonRequired | RequestStatusNotAllowed | PercentageOutOfRange

  datatype VerificationRequest = VerificationRequest(key: ProcessKey, status: int, reason: Option<string>)

  datatype ProcessingRequest = ProcessingRequest(key: ProcessKey, status: int)

  datatype ProgressUpdate = ProgressUpdate(key: ProcessKey, percentage: real, message: Option<string>)

  /** The verification callback as its validators behave: the status must be
      approved or rejected; a rejection whose reason is present but null or
      empty is refused; a reason left out of the payload is never checked. */
  function ValidateVerification(idRequest: int, idSystemProcess: int, status: int, reason: Field<string>)
    : (r: Result<VerificationRequest, SchemaError>)
    ensures r.Success? <==>
      VerifyFromCode(status) == Some(Approved)
      || (VerifyFromCode(status) == Some(Rejected) && (reason.Omitted? || Truthy(FieldValue(reason))))
    ensures r.Success? ==> r.value == VerificationRequest(ProcessKey(idRequest, idSystemProcess), status, FieldValue(reason))
    ensures VerifyFromCode(status) == Some(Rejected) && (reason.Null? || reason == Given("")) ==> r == Failure(ReasonRequired)
    ensures VerifyFromCode(status) == Some(Rejected) && Truthy(FieldValue(reason)) ==> r.Success?
    ensures VerifyFromCode(status) == Some(Rejected) && reason.Omitted? ==> r.Success? && r.value.reason == None
  {
    if status != 1 && status != 2 then Failure(VerifyStatusNotAllowed)
    else if reason.Omitted? then Success(VerificationRequest(ProcessKey(idRequest, idSystemProcess), status, None))
    else if status == 2 && !Truthy(FieldValue(reason)) then Failure(ReasonRequired)
    else Success(VerificationRequest(ProcessKey(idRequest, idSystemProcess), status, FieldValue(reason)))
  }

  /** The verification callback as its documentation describes it: the
      reason check runs whether or not the reason was supplied, so every
      accepted rejection carries a non-empty reason. */
  function ValidateVerificationIntended(idRequest: int, idSystemProcess: int, status: int, reason: Field<string>)
    : (r: Result<VerificationRequest, SchemaError>)
    ensures r.Success? <==>
      VerifyFromCode(status) == Some(Approved)
      || (VerifyFromCode(status) == Some(Rejected) && Truthy(FieldValue(reason)))
    ensures r.Success? ==> r.value == VerificationRequest(ProcessKey(idRequest, idSystemProcess), status, FieldValue(reason))
    ensures r.Success? && r.value.status == Rejected.Code() ==> Truthy(r.value.reason)
  {
    if status != 1 && status != 2 then Failure(VerifyStatusNotAllowed)
    else if status == 2 && !Truthy(FieldValue(reason)) then Failure(ReasonRequired)
    else Success(VerificationRequest(ProcessKey(idRequest, idSystemProcess), status, FieldValue(reason)))
  }

  /** The two validators differ on exactly one kind of input: a rejection
      whose reason is left out of the payload. */
  lemma ValidatorsDifferOnlyOnOmittedReason(idRequest: int, idSystemProcess: int, status: int, reason: Field<string>)
    ensures ValidateVerification(idRequest, idSystemProcess, status, reason)
            != ValidateVerificationIntended(idRequest, idSystemProcess, status, reason)
            <==> status == 2 && reason.Omitted?
  {
  }

  /** The concrete input: rejection of request 1 on system 2 with no reason
      field passes validation and carries no reason. */
  lemma OmittedReasonAccepted()
    ensures ValidateVerification(1, 2, 2, Omitted) == Success(VerificationRequest(ProcessKey(1, 2), 2, None))
    ensures ValidateVerificationIntended(1, 2, 2, Omitted) == Failure(ReasonRequired)
  {
  }

  /** The processing callback accepts exactly completed or error. */
  function ValidateProcessing(idRequest: int, idSystemProcess: int, status: int)
    : (r: Result<ProcessingRequest, SchemaError>)
    ensures r.Success? <==> RequestFromCode(status) == Some(Completed) || RequestFromCode(status) == Some(RequestError)
    ensures r.Success? ==> r.value == ProcessingRequest(ProcessKey(idRequest, idSystemProcess), status)
    ensures r.Failure? ==> r.error == RequestStatusNotAllowed
  {
    if status != 1 && status != 3 then Failure(RequestStatusNotAllowed)
    else Success(ProcessingRequest(ProcessKey(idRequest, idSystemProcess), status))
  }

  /** The progress callback accepts a percentage in [0, 100], both ends
      included; the message is optional. */
  function ValidateProgress(idRequest: int, idSystemProcess: int, percentage: real, message: Field<string>)
    : (r: Result<ProgressUpdate, SchemaError>)
    ensures r.Success? <==> 0.0 <= percentage && percentage <= 100.0
    ensures r.Success? ==> r.value == ProgressUpdate(ProcessKey(idRequest, idSystemProcess), percentage, FieldValue(message))
  {
    if percentage < 0.0 || percentage > 100.0 then Failure(PercentageOutOfRange)
    else Success(ProgressUpdate(ProcessKey(idRequest, idSystemProcess), percentage, FieldValue(message)))
  }

  /** No validated callback can carry pending, error or timeout as a
      verification outcome, nor pending, partial, timeout or canceled as a
      processing outcome: those codes are set by nobody outside. */
  lemma CallbacksCarryOnlyExternalCodes(idRequest: int, idSystemProcess: int, code: int, reason: Field<string>)
    ensures VerifyFromCode(code) in {Some(VerifyPending), Some(VerifyError), Some(VerifyTimeout)} ==>
      ValidateVerification(idRequest, idSystemProcess, code, reason).Failure?
      && ValidateVerificationIntended(idRequest, idSystemProcess, code, reason).Failure?
    ensures RequestFromCode(code) in {Some(RequestPending), Some(Partial), Some(RequestTimeout), Some(Canceled)} ==>
      ValidateProcessing(idRequest, idSystemProcess, code).Failure?
  {
  }
}

=== FILE: status_codes.dfy ===
/** The two closed status-code spaces of a Process and their textual
    rendering. Codes are persisted as plain integers; the enumerations below
    give each integer of a domain its meaning, and `StatusText` renders any
    integer the way the status endpoint does, falling back to an
    "unknown (n)" text outside the table. */
module StatusCodes {
  import opened Common

  /** Verification phase, column st_system_verify. */
  datatype VerifyStatus = VerifyPending | Approved | Rejected | VerifyError | VerifyTimeout {

    /** The persisted integer for this state. */
    function Code(): (c: int)
      ensures 0 <= c <= 4
    {
      match this
      case VerifyPending => 0
      case Approved => 1
      case Rejected => 2
      case VerifyError => 3
      case VerifyTimeout => 4
    }

    /** The label shown for this state. */
    function Label(): string {
      match this
      case VerifyPending => "Pendente"
      case Approved => "Aprovado"
      case Rejected => "Recusado"
      case VerifyError => "Erro"
      case VerifyTimeout => "Timeout"
    }
  }

  /** Processing phase, column st_system_request. */
  datatype RequestStatus = RequestPending | Completed | Partial | RequestError | RequestTimeout | Canceled {

    function Code(): (c: int)
      ensures 0 <= c <= 5
    {
      match this
      case RequestPending => 0
      case Completed => 1
      case Partial => 2
      case RequestError => 3
      case RequestTimeout => 4
      case Canceled => 5
    }

    /** The completed label is kept exactly as get_status_text spells it: its
        accented letter lost the backslash of its escape sequence. */
    function Label(): string {
      match this
      case RequestPending => "Pendente"
      case Completed => "Concluu00eddo"
      case Partial => "Parcial"
      case RequestError => "Erro"
      case RequestTimeout => "Timeout"
      case Canceled => "Cancelado"
    }
  }

  /** Both columns default to 0, the pending state of their domain. */
  const DefaultVerifyCode: int := 0
  const DefaultRequestCode: int := 0

  /** Reads a persisted verification code; None outside the domain 0..4. */
  function VerifyFromCode(code: int): (s: Option<VerifyStatus>)
    ensures s.Some? <==> 0 <= code <= 4
    ensures s.Some? ==> s.value.Code() == code
  {
    if code == 0 then Some(VerifyPending)
    else if code == 1 then Some(Approved)
    else if code == 2 then Some(Rejected)
    else if code == 3 then Some(VerifyError)
    else if code == 4 then Some(VerifyTimeout)
    else None
  }

  /** Reads a persisted processing code; None outside the domain 0..5. */
  function RequestFromCode(code: int): (s: Option<RequestStatus>)
    ensures s.Some? <==> 0 <= code <= 5
    ensures s.Some? ==> s.value.Code() == code
  {
    if code == 0 then Some(RequestPending)
    else if code == 1 then Some(Completed)
    else if code == 2 then Some(Partial)
    else if code == 3 then Some(RequestError)
    else if code == 4 then Some(RequestTimeout)
    else if code == 5 then Some(Canceled)
    else None
  }

  /** Every state survives a trip through its persisted code. */
  lemma VerifyCodeRoundTrip(s: VerifyStatus)
    ensures VerifyFromCode(s.Code()) == Some(s)
  {
  }

  lemma RequestCodeRoundTrip(s: RequestStatus)
    ensures RequestFromCode(s.Code()) == Some(s)
  {
  }

  /** The pending state is the column default in both domains. */
  lemma DefaultsArePending()
    ensures VerifyFromCode(DefaultVerifyCode) == Some(VerifyPending)
    ensures RequestFromCode(DefaultRequestCode) == Some(RequestPending)
  {
  }

  // ---------------------------------------------------------------------
  // Decimal rendering of an integer, as Python's f-string `{n}` does it.
  // ---------------------------------------------------------------------

  predicate IsDigit(c: char) {
    '0' <= c <= '9'
  }

  predicate AllDigits(s: string) {
    forall i :: 0 <= i < |s| ==> IsDigit(s[i])
  }

  function DigitChar(d: int): (c: char)
    requires 0 <= d < 10
    ensures IsDigit(c)
  {
    "0123456789"[d]
  }

  function DigitValue(c: char): (d: int)
    requires IsDigit(c)
    ensures 0 <= d < 10
  {
    c as int - '0' as int
  }

  /** Decimal digits of a natural number, most significant first. */
  function NatToDecimal(n: nat): (s: string)
    ensures |s| >= 1
    ensures AllDigits(s)
    decreases n
  {
    if n < 10 then [DigitChar(n)] else NatToDecimal(n / 10) + [DigitChar(n % 10)]
  }

  /** Value of a non-empty string of decimal digits. */
  function ParseNat(s: string): nat
    requires |s| >= 1 && AllDigits(s)
    decreases |s|
  {
    if |s| == 1 then DigitValue(s[0])
    else ParseNat(s[..|s| - 1]) * 10 + DigitValue(s[|s| - 1])
  }

  /** Decimal rendering of any integer: a minus sign before negative ones. */
  function IntToDecimal(n: int): (s: string)
    ensures |s| >= 1
    ensures s[0] == '-' <==> n < 0
  {
    if n < 0 then "-" + NatToDecimal(-n) else NatToDecimal(n)
  }

  /** Reading back the digits yields the number that was rendered. */
  lemma {:induction false} NatToDecimalRoundTrip(n: nat)
    ensures ParseNat(NatToDecimal(n)) == n
    decreases n
  {
    if n >= 10 {
      var s := NatToDecimal(n);
      assert s[..|s| - 1] == NatToDecimal(n / 10);
      NatToDecimalRoundTrip(n / 10);
    }
  }

  /** Value of a rendering produced by IntToDecimal. */
  function ParseInt(s: string): int
    requires |s| >= 1
    requires s[0] == '-' ==> |s| >= 2 && AllDigits(s[1..])
    requires s[0] != '-' ==> AllDigits(s)
  {
    if s[0] == '-' then -(ParseNat(s[1..]) as int) else ParseNat(s)
  }

  /** Reading back a rendered integer yields that integer. */
  lemma IntToDecimalRoundTrip(n: int)
    ensures var s := IntToDecimal(n);
      && (s[0] == '-' ==> |s| >= 2 && AllDigits(s[1..]))
      && (s[0] != '-' ==> AllDigits(s))
      && ParseInt(s) == n
  {
    if n < 0 {
      var d := NatToDecimal(-n);
      assert ("-" + d)[1..] == d;
      NatToDecimalRoundTrip(-n);
    } else {
      NatToDecimalRoundTrip(n);
    }
  }

  /** Distinct integers have distinct renderings. */
  lemma IntToDecimalInjective(a: int, b: int)
    requires IntToDecimal(a) == IntToDecimal(b)
    ensures a == b
  {
    IntToDecimalRoundTrip(a);
    IntToDecimalRoundTrip(b);
  }

  // ---------------------------------------------------------------------
  // get_status_text
  // ---------------------------------------------------------------------

  const VerifyTable: map<int, string> :=
    map[0 := "Pendente", 1 := "Aprovado", 2 := "Recusado", 3 := "Erro", 4 := "Timeout"]

  const RequestTable: map<int, string> :=
    map[0 := "Pendente", 1 := "Concluu00eddo", 2 := "Parcial", 3 := "Erro", 4 := "Timeout", 5 := "Cancelado"]

  const UnknownPrefix: string := "Desconhecido ("

  /** The text for a code that is not in the selected table. */
  function UnknownText(code: int): string {
    UnknownPrefix + IntToDecimal(code) + ")"
  }

  /** Renders a status code. The type "verify", which is also the type
      when none is given, selects the verification table; every other type
      string, whatever it is, selects the processing table. */
  function StatusText(code: int, statusType: string := "verify"): (text: string)
    ensures statusType == "verify" ==>
      (match VerifyFromCode(code)
       case Some(s) => text == s.Label()
       case None => text == UnknownText(code))
    ensures statusType != "verify" ==>
      (match RequestFromCode(code)
       case Some(s) => text == s.Label()
       case None => text == UnknownText(code))
  {
    var table := if statusType == "verify" then VerifyTable else RequestTable;
    if code in table then table[code] else UnknownText(code)
  }

  /** A call without a type renders with the verification table: 3 reads
      as the verification error and 5 is unknown. */
  lemma StatusTextDefaultsToVerify(code: int)
    ensures StatusText(code) == StatusText(code, "verify")
    ensures StatusText(3) == VerifyError.Label()
    ensures StatusText(5) == UnknownText(5)
  {
  }

  /** An unknown text is longer than any label, so it never collides with one. */
  lemma UnknownIsNoLabel(code: int)
    ensures forall s: VerifyStatus :: UnknownText(code) != s.Label()
    ensures forall s: RequestStatus :: UnknownText(code) != s.Label()
  {
  }

  /** Within one table, the rendering tells codes apart: two codes with the
      same text under the same type are the same code. */
  lemma StatusTextInjective(a: int, b: int, statusType: string)
    requires StatusText(a, statusType) == StatusText(b, statusType)
    ensures a == b
  {
    UnknownIsNoLabel(a);
    UnknownIsNoLabel(b);
    if statusType == "verify" {
      if VerifyFromCode(a).None? && VerifyFromCode(b).None? {
        UnknownTextInjective(a, b);
      }
    } else {
      if RequestFromCode(a).None? && RequestFromCode(b).None? {
        UnknownTextInjective(a, b);
      }
    }
  }

  lemma UnknownTextInjective(a: int, b: int)
    requires UnknownText(a) == UnknownText(b)
    ensures a == b
  {
    var ua, ub := UnknownText(a), UnknownText(b);
    assert ua[|UnknownPrefix|..|ua| - 1] == IntToDecimal(a);
    assert ub[|UnknownPrefix|..|ub| - 1] == IntToDecimal(b);
    IntToDecimalInjective(a, b);
  }

  /** The two tables are different code spaces: 5 is canceled for
      processing and unknown for verification, while 1 and 2 carry different
      meanings in each. */
  lemma TablesDisagree()
    ensures StatusText(5, "verify") == UnknownText(5)
    ensures StatusText(5, "request") == Canceled.Label()
    ensures StatusText(1, "verify") != StatusText(1, "request")
    ensures StatusText(2, "verify") != StatusText(2, "request")
  {
  }
}
